=== FILE: README.md ===
# Merged-mining core of SoloMiner, in Dafny

SoloMiner mines a CryptoNote "donor" chain and, optionally, an "acceptor" chain at the same
time. Before searching, it writes a merge-mining tag (a commitment to the acceptor block's
header hash) into a reserved extra-nonce placeholder of the donor coinbase's `extra` field.
It then searches 32-bit nonces on several worker threads against the easier of the two
difficulties. A found hash is submitted to each chain whose own difficulty it meets; for
the acceptor, the donor block is first recorded in the acceptor block's AuxPoW record.
Status lines go to a queue that the UI polls.

The model follows `MergedMiner.cpp`:

- `wrappers.dfy`: `Option` and `Result`.
- `cryptonote.dfy`: bytes, 32-bit nonces, hashes, the block, transaction and AuxPoW records.
  It also holds `Crypto`, a record of the foreign CryptoNote routines, given as arbitrary
  functions.
- `commitment.dfy`: `fillExtra` (placeholder search, tag embedding, filler field) and
  `mergeBlocks`.
- `nonce_search.dfy`: one worker's nonce walk (`Miner::findBlockNonce`), the start offsets
  handed out by `findNonce`/`threadProcedure`, the disjointness and coverage of the walks, the
  combining of the workers' hashes, and `findNonce` with its workers run one after another.
- `status_queue.dfy`: the message queue behind `getMessage`.
- `pipeline.dfy`: one pass of the loop in `MergedMiner::mine` as a pure step, plus lemmas
  (module `PipelineProperties`) about submissions, launches and runs of many passes.
  Per pass, the network replies, the finished search's outcome, the stop flag and the
  formatted hash rate are inputs.

Notes on the code:
- The search difficulty is `std::min` of the two chains' difficulties (line 345).
- `fillExtra` fails in four places (lines 146, 152, 157, 161).
- `mergeBlocks` writes the acceptor block's own `timestamp` (line 176), not a field of the AuxPoW record.
- The found flag and the nonce are plain atomic stores (lines 84-85), not a compare-and-set, so nothing here claims a single winner.

## Model

| member | source | states |
|---|---|---|
| CryptoNote.NullBytes | MergedMiner.cpp:143 | yields exactly n bytes, all zero: the run of `'\0'` the placeholder ends with, and the null hash |
| Commitment.Placeholder | MergedMiner.cpp:140-143 | the searched pattern is 45 bytes long: the tag byte, the length byte 43, then 43 zeros |
| Commitment.FindFrom | MergedMiner.cpp:145 | the result is the first position at or after `from` where the pattern occurs; None means it occurs at no such position |
| Commitment.Find | MergedMiner.cpp:145 | `std::string::find`: the result is an occurrence with no earlier occurrence; None exactly when the pattern occurs nowhere |
| Commitment.CopyInto | MergedMiner.cpp:171 | `std::copy` into the buffer: length kept, the source bytes land at `pos..`, every other byte is unchanged |
| Commitment.Window | MergedMiner.cpp:165-171 | the replacement window for a tag of at most 43 bytes is exactly as long as the placeholder |
| Commitment.WindowAfterCopy | MergedMiner.cpp:165-171 | writing the tag, `TX_EXTRA_NONCE` and the byte `45-S-2` over the placeholder leaves its trailing zeros as the filler payload, so the 45-byte window is tag ++ [TX_EXTRA_NONCE, 43-S] ++ (43-S) zeros |
| Commitment.EmbedCommitment | MergedMiner.cpp:136-173 | each of the four failure causes is reported exactly when it occurs, in the source's order. On success the length is kept, only the 45 bytes at the first placeholder change, and they hold the tag, then `TX_EXTRA_NONCE`, then `43-S`, then zeros. The `0 < diff` test is modelled, and this window contents proves its filler branch is always taken |
| Commitment.FillExtra | MergedMiner.cpp:136-173 | returns true exactly when embedding succeeds; on false `block1` is unchanged; on true only the coinbase `extra` differs |
| Commitment.EmbedThenRead | MergedMiner.cpp:161-171 | reading back a successful embedding: the tag sits at the placeholder position, and right after it comes a well-formed extra-nonce field with zero payload that ends exactly where the placeholder ended |
| Commitment.TransactionLeaves | MergedMiner.cpp:184-186 | the leaf list is `|tx_hashes|+1` long, with the coinbase hash at index 0 and then the other transaction hashes in order |
| Commitment.MergeBlocks | MergedMiner.cpp:175-190 | always returns true. Copies timestamp, versions, prev_id, nonce and coinbase from `block1`. Sets the transaction count to `|tx_hashes|+1` and the branch length to `tree_depth` of that count. Every branch entry is computed over the coinbase-first leaf list. `blockchain_branch` ends empty. Nothing else of `block2` changes |
| Commitment.MergeBlocksOverwrites | MergedMiner.cpp:175-190 | merging twice with the same donor equals merging once, and `block2`'s earlier timestamp and AuxPoW record do not affect the result |
| NonceSearch.FindBlockNonce | MergedMiner.cpp:73-98 | with threads >= 1, the loop terminates and never overflows 32 bits. It hashes exactly `start + k*threads` for k = 0, 1, ..., each under an unset found/stopped flag, and each miss except possibly the last. `Found` means the last nonce's hash passed `check_hash` and is returned; in every other case the null hash is returned. Oracle failure and exhaustion (`UINT32_MAX - nonce < threads`) are told apart from stopping |
| NonceSearch.StartOffsets | MergedMiner.cpp:22-36 | the calling thread's offset is 0, and the spawned workers receive the successive values of the 32-bit `m_startedThreads` counter, which starts at 1: offset i is `i mod 2^32` |
| NonceSearch.OffsetsPartitionResidues | MergedMiner.cpp:67-71 | for at most 2^32 threads, the offsets are pairwise distinct and are exactly 0 .. threads-1 |
| NonceSearch.WalksDisjoint | MergedMiner.cpp:90-94 | two stride-t walks from different offsets below t never hash the same nonce |
| NonceSearch.WorkersNeverShareNonce | MergedMiner.cpp:67-94 | no two distinct workers of one search ever hash the same nonce |
| NonceSearch.EveryNonceHasAWorker | MergedMiner.cpp:67-94 | every 32-bit nonce n lies on the walk of worker `n mod threads`, at step `n / threads` |
| NonceSearch.ExhaustedWalkCovers | MergedMiner.cpp:90-94 | a worker that stopped on the overflow guard hashed every nonce of its residue class from its offset up to 2^32-1 |
| NonceSearch.ExhaustedWorkerMissedClass | MergedMiner.cpp:75-95 | a worker at offset i that ran out of nonces, missing every nonce it hashed, missed every 32-bit nonce congruent to i modulo the thread count |
| NonceSearch.CombineHashes | MergedMiner.cpp:39-45 | the result is the last spawned worker's non-null hash, or the calling thread's hash when all workers returned null; a non-null result is one of the inputs |
| NonceSearch.LastNonNull | MergedMiner.cpp:40-44 | when some hash is non-null, there is a last non-null one, and it is the one the combining loop keeps |
| NonceSearch.CombinedHashMeetsDifficulty | MergedMiner.cpp:39-45 | when every walk returned the null hash or a hash that passed `check_hash`, and one of them found, the combined hash passes `check_hash` too, whichever worker it came from |
| NonceSearch.FindNonce | MergedMiner.cpp:22-50 | when `findNonce` reports found, its hash passes `check_hash` at the searched difficulty, and the nonce it stores hashes to a digest that passes too. The two are not claimed to come from the same worker. When nothing is found, the nonce is 0 and the hash is null. Conversely, when no worker sees a stop and no hash fails, "not found" means every 32-bit nonce was hashed and none meets the difficulty |
| StatusQueue.Push | MergedMiner.cpp:274 | pushing keeps the queued messages and puts the new one last |
| StatusQueue.GetMessage | MergedMiner.cpp:211-220 | on an empty queue returns "" and leaves the queue unchanged; otherwise returns the oldest message, and the rest is what remains |
| StatusQueue.PushAllAppends | MergedMiner.cpp:273-274 | a series of pushes appends the messages in push order |
| StatusQueue.DrainReturnsQueue | MergedMiner.cpp:211-220 | polling as many times as there are messages returns them oldest first and leaves the queue empty |
| StatusQueue.DrainEmpty | MergedMiner.cpp:211-220 | polling an empty queue n times yields n empty strings and keeps it empty |
| StatusQueue.FifoOrder | MergedMiner.cpp:211-220 | no message is lost or reordered: messages already queued come out first, followed by the new batch in push order |
| Pipeline.GetBlockTemplate | MergedMiner.cpp:118-133 | a template comes back exactly when the transport succeeded, the status is empty or "OK", and the blob decoded |
| Pipeline.Begin | MergedMiner.cpp:238-254 | the loop starts, with no search running, exactly when the donor wallet parses and, if an acceptor is configured, the acceptor wallet parses. Otherwise `mine` returns false, submits nothing, and appends exactly one line: "Failed to parse donor wallet address" when the donor wallet fails, else "Failed to parse acceptor wallet address" |
| Pipeline.Finish | MergedMiner.cpp:297-334 | the donor is submitted to exactly when the search found a nonce and the hash meets the donor difficulty. Independently, the acceptor is submitted to exactly when an acceptor is configured, a nonce was found and the hash meets the acceptor difficulty. The blocks are the solved donor block and the merged acceptor block. Each submission reports one line naming its chain and whether it was accepted, in submission order, and the hash-rate line comes last. Each chain is submitted to at most once, and the donor before the acceptor |
| Pipeline.Launch | MergedMiner.cpp:339-351 | no search is launched exactly when an acceptor is configured and `fillExtra` fails. Otherwise the job keeps the donor height and difficulty. Without an acceptor it searches the donor block for `d1`. With one, it searches the embedded donor block, keeps the acceptor block and `d2`, and searches for a difficulty no larger than either that equals one of them, which is `min(d1, d2)` |
| Pipeline.Step | MergedMiner.cpp:255-358 | Stop returns true with nothing submitted. Messages are only appended. A failed donor or acceptor fetch appends that chain's failure line and keeps the running search. An acceptor block that is not version 2 returns false after the unsupported-version line, with nothing submitted. Past fetching, the finished search's lines are appended, and a failed `fillExtra` returns false after a final "Internal error". Only stop returns true. Only a pass that gets past fetching finishes the running search. The loop invariant is kept |
| PipelineProperties.DonorSubmissionRule | MergedMiner.cpp:297-308 | a donor submission happens exactly when the pass gets past fetching, a search was running and found a nonce, and the hash meets that search's captured donor difficulty. The block sent is the launched block with the found nonce |
| PipelineProperties.AcceptorSubmissionRule | MergedMiner.cpp:310-324 | an acceptor submission happens exactly when an acceptor is configured, the pass gets past fetching, a nonce was found, and the hash meets the captured acceptor difficulty, whatever happened on the donor side. The block sent merges the solved donor block into the captured acceptor block |
| PipelineProperties.LaunchRule | MergedMiner.cpp:339-351 | after fetching, a pass returns only when an acceptor is configured and `fillExtra` fails. Otherwise it launches a search on the new donor block, with the commitment embedded when an acceptor is configured, for `min(d1, d2)`, or for `d1` without an acceptor |
| PipelineProperties.EasierChainSubmitted | MergedMiner.cpp:297-345 | a found hash that meets the searched difficulty is submitted to at least one chain. It is always submitted to the donor when the donor is alone or the easier chain. `NonceSearch.FindNonce` guarantees the hash premise |
| PipelineProperties.RunAppendsMessages | MergedMiner.cpp:255-360 | over any sequence of passes, messages are only appended and the loop invariant holds. `mine` returns true only after a pass that saw the stop flag |

## Left out

- Network plumbing: the JSON-RPC transport, hex and `binary_archive` (de)serialisation of templates and blocks (lines 113-134, 192-202). A reply and its decoded block are inputs of a pass; only the acceptance rule (`RpcSucceeded`, lines 119 and 197) is modelled.
- Concurrency: `std::async` workers, atomics, the overlap of round N's search with round N+1's fetch, and the 50 x 100 ms poll (lines 34-45, 353-358). A worker sees the other threads only through the `halted` schedule. A pass of `mine` receives the finished search's outcome as an input.
- The pairing of `m_nonce` and `hash`: the stores at lines 84-85 and the combining at lines 39-45 race. So neither `FindNonce` nor a pass's search outcome is claimed to carry a nonce and a hash from the same worker.
- NonceSearch.FindNonce: requires threads >= 1, as `FindBlockNonce` does. It runs the workers one after another, each under an arbitrary flag schedule. It states what holds for every such schedule, not which worker wins a real race.
- Foreign CryptoNote routines: `get_block_longhash`, `check_hash`, `get_block_header_hash`, `append_mm_tag_to_extra`, `get_transaction_hash`, `tree_depth`, `tree_branch` are arbitrary functions. Because `tree_branch` is not shown, the model cannot prove that the branch reconstructs the Merkle root.
- The hash-rate line divides a count by a `double` duration (line 329): floating point and the clock. The formatted text is an input of a pass.
- Wallet address parsing (lines 240-252) is a foreign call; only its boolean outcome enters `Begin`.
- The `long_state` scratch allocation (lines 32, 47) has no logical content.
- `getBlockCount`: `m_blockCount` is only reset (line 254), never incremented.
- `start`/`stop` (lines 14-20, 362-368) only set flags; the flags are inputs (`halted`, `RoundInput.stopped`).
- The UI in `main.cpp` and the declarations in `MergedMiner.h` carry no logic beyond what is modelled.
- `TX_EXTRA_NONCE` (0x02), `BLOCK_MAJOR_VERSION_2` (2) and `CORE_RPC_STATUS_OK` ("OK") are defined in CryptoNote headers that are not part of this model. The values used are CryptoNote's, and no proof depends on them.
- Integer widths defined outside `MergedMiner.cpp` are unbounded here: `difficulty_type`, `timestamp`, `number_of_transactions`, the versions' byte width aside. Only the nonce and the started-threads counter are 32-bit, as the code declares them.
- NonceSearch.FindBlockNonce: requires threads >= 1. `main.cpp` offers only 1 .. hardware concurrency. With 0 threads, line 94 adds 0, so the nonce never advances, and line 32's scratch buffer is empty.
- NonceSearch.StartOffsets: requires threads >= 1 for the same reason as `FindBlockNonce`. With 0 threads the source spawns no worker and the caller still starts at 0.
- NonceSearch.OffsetsPartitionResidues: states distinctness only for at most 2^32 threads, because beyond that the 32-bit counter wraps and offsets repeat.
- NonceSearch.WorkersNeverShareNonce: the same 2^32 bound as above.
- NonceSearch.EveryNonceHasAWorker: the same 2^32 bound as above.
- The "Internal error" return after `mergeBlocks` (lines 311-315) is kept in `Pipeline.Finish` but can never be taken, because `MergeBlocks` always returns true.

=== FILE: commitment.dfy ===
/**
  The two block rewrites of merged mining: `fillExtra`, which writes the merge-mining
  commitment into the donor coinbase's `extra` field, and `mergeBlocks`, which records the
  donor block inside the acceptor block's AuxPoW record once a shared nonce is found.
 */
module Commitment {
  import opened Wrappers
  import opened CryptoNote

  const TX_EXTRA_FIELD_TAG_BYTES: nat := 1
  const TX_MM_FIELD_SIZE_BYTES: nat := 1
  const MAX_VARINT_SIZE: nat := 9
  const TX_MM_TAG_MAX_BYTES: nat := MAX_VARINT_SIZE + HASH_SIZE
  /** Bytes reserved in the donor coinbase for the serialized merge-mining tag: 43. */
  const MERGE_MINING_TAG_RESERVED_SIZE: nat :=
    TX_EXTRA_FIELD_TAG_BYTES + TX_MM_FIELD_SIZE_BYTES + TX_MM_TAG_MAX_BYTES

  /**
    The extra-nonce field the daemon wrote when asked to reserve the tag's size:
    the sub-field tag, the length byte 43, then 43 zero bytes.
   */
  function Placeholder(): (p: seq<byte>)
    ensures |p| == MERGE_MINING_TAG_RESERVED_SIZE + 2 == 45
  {
    [TX_EXTRA_NONCE, MERGE_MINING_TAG_RESERVED_SIZE as byte] + NullBytes(MERGE_MINING_TAG_RESERVED_SIZE)
  }

  predicate OccursAt(s: seq<byte>, pattern: seq<byte>, i: nat)
  {
    i + |pattern| <= |s| && s[i..i + |pattern|] == pattern
  }

  function FindFrom(s: seq<byte>, pattern: seq<byte>, from: nat): (r: Option<nat>)
    decreases |s| - from
    ensures r.Some? ==> from <= r.value && OccursAt(s, pattern, r.value)
    ensures r.Some? ==> forall i :: from <= i < r.value ==> !OccursAt(s, pattern, i)
    ensures r.None? ==> forall i :: from <= i ==> !OccursAt(s, pattern, i)
  {
    if |s| < from + |pattern| then None
    else if s[from..from + |pattern|] == pattern then Some(from)
    else FindFrom(s, pattern, from + 1)
  }

  /** `std::string::find`: the first position at which `pattern` occurs in `s`, if any. */
  function Find(s: seq<byte>, pattern: seq<byte>): (r: Option<nat>)
    ensures r.Some? ==> OccursAt(s, pattern, r.value)
    ensures r.Some? ==> forall i :: 0 <= i < r.value ==> !OccursAt(s, pattern, i)
    ensures r.None? <==> forall i :: !OccursAt(s, pattern, i)
  {
    FindFrom(s, pattern, 0)
  }

  /** `std::copy` of `src` over `dst` starting at `pos`. */
  function CopyInto(dst: seq<byte>, pos: nat, src: seq<byte>): (r: seq<byte>)
    requires pos + |src| <= |dst|
    ensures |r| == |dst|
    ensures forall i :: 0 <= i < |src| ==> r[pos + i] == src[i]
    ensures forall i :: 0 <= i < |dst| && !(pos <= i < pos + |src|) ==> r[i] == dst[i]
  {
    dst[..pos] + src + dst[pos + |src|..]
  }

  datatype EmbedError = PlaceholderNotFound | HeaderHashFailed | TagSerializationFailed | TagTooLarge

  /** The tag committing to the acceptor block: depth 0, root = the acceptor header hash. */
  function CommitmentTag(root: Hash): MergeMiningTag
  {
    MergeMiningTag(0, root)
  }

  /** The serialized tag for `aux`, when both foreign calls succeed. */
  function SerializedTag(aux: Block, c: Crypto): Option<seq<byte>>
  {
    match c.headerHash(aux)
    case None => None
    case Some(root) => c.serializeTag(CommitmentTag(root))
  }

  /** The 45 bytes the placeholder is replaced by: the tag, then a filler extra-nonce field. */
  function Window(tag: seq<byte>): (w: seq<byte>)
    requires |tag| <= MERGE_MINING_TAG_RESERVED_SIZE
    ensures |w| == |Placeholder()|
  {
    tag + [TX_EXTRA_NONCE, (MERGE_MINING_TAG_RESERVED_SIZE - |tag|) as byte]
        + NullBytes(MERGE_MINING_TAG_RESERVED_SIZE - |tag|)
  }

  /**
    The effect of `fillExtra` on the coinbase `extra` bytes. Failure leaves nothing written;
    success replaces exactly the first placeholder and nothing else.
   */
  function EmbedCommitment(extra: seq<byte>, aux: Block, c: Crypto): (r: Result<seq<byte>, EmbedError>)
    ensures r == Failure(PlaceholderNotFound) <==> forall i :: !OccursAt(extra, Placeholder(), i)
    ensures r == Failure(HeaderHashFailed) <==>
              (exists i :: OccursAt(extra, Placeholder(), i)) && c.headerHash(aux).None?
    ensures r == Failure(TagSerializationFailed) <==>
              (exists i :: OccursAt(extra, Placeholder(), i)) && c.headerHash(aux).Some?
              && SerializedTag(aux, c).None?
    ensures r == Failure(TagTooLarge) <==>
              (exists i :: OccursAt(extra, Placeholder(), i)) && SerializedTag(aux, c).Some?
              && MERGE_MINING_TAG_RESERVED_SIZE < |SerializedTag(aux, c).value|
    ensures r.Success? ==>
              && SerializedTag(aux, c).Some?
              && |SerializedTag(aux, c).value| <= MERGE_MINING_TAG_RESERVED_SIZE
              && |r.value| == |extra|
              && Find(extra, Placeholder()).Some?
              && var pos := Find(extra, Placeholder()).value;
                 && r.value[pos..pos + |Placeholder()|] == Window(SerializedTag(aux, c).value)
                 && (forall i :: 0 <= i < |extra| && !(pos <= i < pos + |Placeholder()|) ==>
                       r.value[i] == extra[i])
  {
    match Find(extra, Placeholder())
    case None => Failure(PlaceholderNotFound)
    case Some(pos) =>
      match c.headerHash(aux)
      case None => Failure(HeaderHashFailed)
      case Some(root) =>
        match c.serializeTag(CommitmentTag(root))
        case None => Failure(TagSerializationFailed)
        case Some(tag) =>
          if MERGE_MINING_TAG_RESERVED_SIZE < |tag| then Failure(TagTooLarge)
          else
            // `diff` is at least 2 here, so `fillExtra`'s `0 < diff` test always passes
            var diff := |Placeholder()| - |tag|;
            var replacement := if 0 < diff then tag + [TX_EXTRA_NONCE, (diff - 2) as byte] else tag;
            var out := CopyInto(extra, pos, replacement);
            WindowAfterCopy(extra, pos, tag, out);
            Success(out)
  }

  /** Copying the tag and filler header over a placeholder leaves its trailing zeros as the filler payload. */
  lemma WindowAfterCopy(extra: seq<byte>, pos: nat, tag: seq<byte>, out: seq<byte>)
    requires OccursAt(extra, Placeholder(), pos)
    requires |tag| <= MERGE_MINING_TAG_RESERVED_SIZE
    requires out == CopyInto(extra, pos, tag + [TX_EXTRA_NONCE, (|Placeholder()| - |tag| - 2) as byte])
    ensures out[pos..pos + |Placeholder()|] == Window(tag)
  {
    var w := Window(tag);
    var n := |tag| + 2;
    forall i | 0 <= i < |Placeholder()|
      ensures out[pos..pos + |Placeholder()|][i] == w[i]
    {
      if i >= n {
        assert out[pos + i] == extra[pos + i] == extra[pos..pos + |Placeholder()|][i];
        assert Placeholder()[i] == 0;
      }
    }
  }

  /**
    `fillExtra(block1, block2)`: on success `block1`'s coinbase `extra` carries the commitment
    to `block2`; on failure `block1` is returned as it was. No other field is touched.
   */
  function FillExtra(block1: Block, block2: Block, c: Crypto): (r: (bool, Block))
    ensures r.0 <==> EmbedCommitment(block1.minerTx.extra, block2, c).Success?
    ensures !r.0 ==> r.1 == block1
    ensures r.0 ==> r.1 == block1.(minerTx := block1.minerTx.(
                             extra := EmbedCommitment(block1.minerTx.extra, block2, c).value))
  {
    match EmbedCommitment(block1.minerTx.extra, block2, c)
    case Failure(_) => (false, block1)
    case Success(extra) => (true, block1.(minerTx := block1.minerTx.(extra := extra)))
  }

  /** Where an extra-nonce sub-field starting at `i` ends, read from its length byte. */
  function NonceFieldEnd(s: seq<byte>, i: nat): Option<nat>
  {
    if i + 2 <= |s| && s[i] == TX_EXTRA_NONCE && i + 2 + s[i + 1] as nat <= |s|
    then Some(i + 2 + s[i + 1] as nat)
    else None
  }

  /**
    Reading back a successful embedding: the tag sits at the placeholder's position and is
    followed by a well-formed extra-nonce field with all-zero payload that ends exactly
    where the placeholder ended, so the `extra` field still parses with the same extent.
   */
  lemma EmbedThenRead(extra: seq<byte>, aux: Block, c: Crypto, pos: nat)
    requires EmbedCommitment(extra, aux, c).Success?
    requires OccursAt(extra, Placeholder(), pos)
    requires forall j :: 0 <= j < pos ==> !OccursAt(extra, Placeholder(), j)
    ensures var out := EmbedCommitment(extra, aux, c).value;
            var tag := SerializedTag(aux, c).value;
            && out[pos..pos + |tag|] == tag
            && NonceFieldEnd(out, pos + |tag|) == Some(pos + |Placeholder()|)
            && (forall i :: pos + |tag| + 2 <= i < pos + |Placeholder()| ==> out[i] == 0)
  {
    var out := EmbedCommitment(extra, aux, c).value;
    var tag := SerializedTag(aux, c).value;
    var p := Find(extra, Placeholder()).value;
    assert p == pos;
    var w := Window(tag);
    forall i | 0 <= i < |Placeholder()|
      ensures out[pos + i] == w[i]
    {
      assert out[pos..pos + |Placeholder()|][i] == out[pos + i];
    }
    assert out[pos..pos + |tag|] == tag by {
      forall i | 0 <= i < |tag| ensures out[pos..pos + |tag|][i] == tag[i] {
        assert out[pos + i] == w[i];
      }
    }
    assert out[pos + |tag|] == w[|tag|] == TX_EXTRA_NONCE;
    assert out[pos + |tag| + 1] == w[|tag| + 1];
    forall i | pos + |tag| + 2 <= i < pos + |Placeholder()|
      ensures out[i] == 0
    {
      assert out[pos + (i - pos)] == w[i - pos];
    }
  }

  /** The ordered leaves of the donor block's transaction tree: coinbase first, then the rest. */
  function TransactionLeaves(block1: Block, c: Crypto): (leaves: seq<Hash>)
    ensures |leaves| == |block1.txHashes| + 1
    ensures leaves[0] == c.txHash(block1.minerTx)
    ensures forall i :: 0 <= i < |block1.txHashes| ==> leaves[i + 1] == block1.txHashes[i]
  {
    [c.txHash(block1.minerTx)] + block1.txHashes
  }

  /**
    `mergeBlocks(block1, block2)`: fill `block2`'s AuxPoW record from the donor `block1`.
    It always succeeds; only the timestamp and the AuxPoW record of `block2` change.
   */
  function MergeBlocks(block1: Block, block2: Block, c: Crypto): (r: (bool, Block))
    ensures r.0
    ensures r.1.timestamp == block1.timestamp
    ensures var p := r.1.parentBlock;
            && p.majorVersion == block1.majorVersion
            && p.minorVersion == block1.minorVersion
            && p.prevId == block1.prevId
            && p.nonce == block1.nonce
            && p.minerTx == block1.minerTx
            && p.numberOfTransactions == |block1.txHashes| + 1
            && |p.minerTxBranch| == c.treeDepth(|block1.txHashes| + 1)
            && (forall i :: 0 <= i < |p.minerTxBranch| ==>
                  p.minerTxBranch[i] == c.treeBranch(TransactionLeaves(block1, c), i))
            && p.blockchainBranch == []
    ensures r.1 == block2.(timestamp := r.1.timestamp, parentBlock := r.1.parentBlock)
  {
    var leaves := TransactionLeaves(block1, c);
    var depth := c.treeDepth(|leaves|);
    var parent := ParentBlock(
      majorVersion := block1.majorVersion,
      minorVersion := block1.minorVersion,
      prevId := block1.prevId,
      nonce := block1.nonce,
      minerTx := block1.minerTx,
      numberOfTransactions := |block1.txHashes| + 1,
      minerTxBranch := seq(depth, i requires 0 <= i < depth => c.treeBranch(leaves, i)),
      blockchainBranch := []);
    (true, block2.(timestamp := block1.timestamp, parentBlock := parent))
  }

  /**
    Merging overwrites every field it sets, so merging again with the same donor block
    changes nothing, and what `block2` held in those fields beforehand is irrelevant.
   */
  lemma MergeBlocksOverwrites(block1: Block, block2: Block, other: Block, c: Crypto)
    requires other == block2.(timestamp := other.timestamp, parentBlock := other.parentBlock)
    ensures MergeBlocks(block1, MergeBlocks(block1, block2, c).1, c) == MergeBlocks(block1, block2, c)
    ensures MergeBlocks(block1, other, c) == MergeBlocks(block1, block2, c)
  {
  }
}

=== FILE: cryptonote.dfy ===
/**
  The CryptoNote types the miner manipulates, reduced to the fields the merged-mining
  code reads or writes, and the foreign routines it calls, as uninterpreted parameters.
 */
module CryptoNote {
  import opened Wrappers

  newtype byte = b: int | 0 <= b < 0x100
  newtype uint32 = n: int | 0 <= n < 0x1_0000_0000

  const UINT32_MAX: int := 0xFFFF_FFFF

  /** Size in bytes of a `crypto::hash`. */
  const HASH_SIZE: nat := 32

  /** Sub-field tag of an extra-nonce field in a transaction's `extra` (CryptoNote value 0x02). */
  const TX_EXTRA_NONCE: byte := 0x02

  /** The only block major version an acceptor chain may use for merged mining (CryptoNote value 2). */
  const BLOCK_MAJOR_VERSION_2: byte := 2

  /** The status string a daemon returns on success (CryptoNote value "OK"). */
  const CORE_RPC_STATUS_OK: string := "OK"

  /** A 32-byte digest. */
  datatype Hash = Hash(bytes: seq<byte>)

  /** `n` zero bytes. */
  function NullBytes(n: nat): (z: seq<byte>)
    ensures |z| == n && forall i :: 0 <= i < n ==> z[i] == 0
  {
    if n == 0 then [] else NullBytes(n - 1) + [0]
  }

  /** `cryptonote::null_hash`: the digest the code uses to mean "no hash". */
  const NULL_HASH: Hash := Hash(NullBytes(HASH_SIZE))

  /** A difficulty target; larger is stricter. */
  type Difficulty = nat

  /** A transaction: the opaque remainder of its prefix, and its `extra` byte field. */
  datatype Transaction = Transaction(body: seq<byte>, extra: seq<byte>)

  /** The AuxPoW record an acceptor block carries about the donor block it was mined with. */
  datatype ParentBlock = ParentBlock(
    majorVersion: byte,
    minorVersion: byte,
    prevId: Hash,
    nonce: uint32,
    minerTx: Transaction,
    numberOfTransactions: nat,
    minerTxBranch: seq<Hash>,
    blockchainBranch: seq<Hash>)

  /** A candidate block: header fields, coinbase, hashes of the other transactions, AuxPoW record. */
  datatype Block = Block(
    majorVersion: byte,
    minorVersion: byte,
    timestamp: nat,
    prevId: Hash,
    nonce: uint32,
    minerTx: Transaction,
    txHashes: seq<Hash>,
    parentBlock: ParentBlock)

  /** `tx_extra_merge_mining_tag`: the commitment a donor coinbase carries. */
  datatype MergeMiningTag = MergeMiningTag(depth: nat, merkleRoot: Hash)

  /**
    The foreign CryptoNote routines the merged-mining code calls. Each is an arbitrary
    function; the ones that return `bool` in C++ return an `Option` here.
   */
  datatype Crypto = Crypto(
    /** `get_block_header_hash` */
    headerHash: Block -> Option<Hash>,
    /** `append_mm_tag_to_extra` applied to an empty vector */
    serializeTag: MergeMiningTag -> Option<seq<byte>>,
    /** `get_transaction_hash` */
    txHash: Transaction -> Hash,
    /** `crypto::tree_depth` */
    treeDepth: nat -> nat,
    /** element `i` of the branch `crypto::tree_branch` writes for the given leaves */
    treeBranch: (seq<Hash>, nat) -> Hash,
    /** `check_hash`: whether a digest meets a difficulty */
    checkHash: (Hash, Difficulty) -> bool)
}

=== FILE: nonce_search.dfy ===
/**
  The proof-of-work search of class `Miner`: each worker walks the 32-bit nonce space from
  its own start offset with a stride equal to the thread count. Worker threads are modelled
  one at a time; what the others do reaches a worker only through the shared found/stopped
  flags, given here as the schedule `halted`.
 */
module NonceSearch {
  import opened Wrappers
  import opened CryptoNote

  /** Why a worker's loop ended; `Found` carries the nonce it stores into `m_nonce`. */
  datatype WalkExit = Found(nonce: uint32) | Stopped | OracleFailed | Exhausted

  /** The `k`-th nonce a worker starting at `start` hashes. */
  function WalkNonce(start: int, threads: int, k: int): int
  {
    start + k * threads
  }

  /** The nonce was hashed and its digest does not meet the difficulty. */
  predicate Missed(longhash: uint32 -> Option<Hash>, checkHash: (Hash, Difficulty) -> bool,
                   difficulty: Difficulty, n: uint32)
  {
    longhash(n).Some? && !checkHash(longhash(n).value, difficulty)
  }

  /**
    `Miner::findBlockNonce`: one worker's loop. `halted(k)` says whether the worker sees
    `m_nonceFound` or `m_stopped` set when it tests the loop condition for the `k`-th time;
    `longhash(n)` is `get_block_longhash` of the block carrying nonce `n`. `hashed` lists the
    nonces hashed, in order (one `++m_hashes` each).
   */
  method FindBlockNonce(start: uint32, threads: nat, difficulty: Difficulty,
                        halted: nat -> bool, longhash: uint32 -> Option<Hash>,
                        checkHash: (Hash, Difficulty) -> bool)
    returns (blockHash: Hash, exit: WalkExit, hashed: seq<uint32>)
    requires threads >= 1
    ensures forall k :: 0 <= k < |hashed| ==> hashed[k] as int == WalkNonce(start as int, threads, k)
    ensures forall k :: 0 <= k < |hashed| ==> !halted(k)
    ensures forall k :: 0 <= k < |hashed| - 1 ==> Missed(longhash, checkHash, difficulty, hashed[k])
    ensures exit.Found? ==>
              && |hashed| > 0 && exit.nonce == hashed[|hashed| - 1]
              && longhash(exit.nonce) == Some(blockHash) && checkHash(blockHash, difficulty)
    ensures !exit.Found? ==> blockHash == NULL_HASH
    ensures exit.OracleFailed? ==> |hashed| > 0 && longhash(hashed[|hashed| - 1]).None?
    ensures exit.Exhausted? ==>
              && |hashed| > 0 && Missed(longhash, checkHash, difficulty, hashed[|hashed| - 1])
              && UINT32_MAX - hashed[|hashed| - 1] as int < threads
    ensures exit.Stopped? ==>
              && halted(|hashed|)
              && (|hashed| > 0 ==>
                    && Missed(longhash, checkHash, difficulty, hashed[|hashed| - 1])
                    && UINT32_MAX - hashed[|hashed| - 1] as int >= threads)
  {
    blockHash := NULL_HASH;
    exit := Stopped;
    hashed := [];
    var nonce := start;
    while !halted(|hashed|)
      invariant nonce as int == WalkNonce(start as int, threads, |hashed|)
      invariant forall k :: 0 <= k < |hashed| ==> hashed[k] as int == WalkNonce(start as int, threads, k)
      invariant forall k :: 0 <= k < |hashed| ==> !halted(k)
      invariant forall k :: 0 <= k < |hashed| ==> Missed(longhash, checkHash, difficulty, hashed[k])
      invariant |hashed| > 0 ==> UINT32_MAX - hashed[|hashed| - 1] as int >= threads
      decreases UINT32_MAX - nonce as int
    {
      var hash := longhash(nonce);
      hashed := hashed + [nonce];
      if hash.None? {
        exit := OracleFailed;
        break;
      }
      if checkHash(hash.value, difficulty) {
        exit := Found(nonce);
        blockHash := hash.value;
        break;
      }
      if UINT32_MAX - nonce as int < threads {
        exit := Exhausted;
        break;
      }
      nonce := nonce + threads as uint32;
    }
  }

  /**
    The start offsets of one search, in the order the shared counter hands them out:
    the calling thread searches from 0, and each spawned worker post-increments
    `m_startedThreads`, a 32-bit counter that starts at 1.
   */
  method StartOffsets(threads: nat) returns (offsets: seq<uint32>)
    requires threads >= 1
    ensures |offsets| == threads
    ensures forall i :: 0 <= i < threads ==> offsets[i] as int == i % 0x1_0000_0000
  {
    offsets := [0];
    var started: uint32 := 1;
    var i := 1;
    while i < threads
      invariant 1 <= i <= threads
      invariant |offsets| == i
      invariant started as int == i % 0x1_0000_0000
      invariant forall j :: 0 <= j < i ==> offsets[j] as int == j % 0x1_0000_0000
    {
      offsets := offsets + [started];
      started := ((started as int + 1) % 0x1_0000_0000) as uint32;
      i := i + 1;
    }
  }

  /** A product of a positive factor and a stride is at least the stride. */
  lemma StrideMultiple(d: int, t: nat)
    requires d >= 1
    ensures d * t >= t
  {
  }

  /** Two walks with the same stride from different offsets below the stride never meet. */
  lemma WalksDisjoint(a: nat, b: nat, t: nat, k: nat, m: nat)
    requires a < t && b < t && a != b
    ensures WalkNonce(a, t, k) != WalkNonce(b, t, m)
  {
    if k > m {
      StrideMultiple(k - m, t);
      assert k * t == (k - m) * t + m * t;
    } else if m > k {
      StrideMultiple(m - k, t);
      assert m * t == (m - k) * t + k * t;
    }
  }

  /** With at most 2^32 threads, the offsets are exactly 0 .. threads-1, each once. */
  lemma OffsetsPartitionResidues(threads: nat, offsets: seq<uint32>)
    requires 1 <= threads <= 0x1_0000_0000
    requires |offsets| == threads
    requires forall i :: 0 <= i < threads ==> offsets[i] as int == i % 0x1_0000_0000
    ensures forall i, j :: 0 <= i < j < threads ==> offsets[i] != offsets[j]
    ensures forall n: uint32 :: n as int < threads <==> n in offsets
  {
    forall n: uint32 | n as int < threads ensures n in offsets {
      assert offsets[n] == n;
    }
  }

  /**
    Two different workers of one search never hash the same nonce: worker `i` and
    worker `j` start at different offsets below the stride.
   */
  lemma WorkersNeverShareNonce(threads: nat, offsets: seq<uint32>, i: nat, j: nat, k: nat, m: nat)
    requires 1 <= threads <= 0x1_0000_0000
    requires |offsets| == threads
    requires forall w :: 0 <= w < threads ==> offsets[w] as int == w % 0x1_0000_0000
    requires i < threads && j < threads && i != j
    ensures WalkNonce(offsets[i] as int, threads, k) != WalkNonce(offsets[j] as int, threads, m)
  {
    OffsetsPartitionResidues(threads, offsets);
    WalksDisjoint(offsets[i] as nat, offsets[j] as nat, threads, k, m);
  }

  /**
    Every 32-bit nonce lies on the walk of the worker whose offset is the nonce's residue
    modulo the thread count, as its (nonce / threads)-th step.
   */
  lemma EveryNonceHasAWorker(threads: nat, offsets: seq<uint32>, n: uint32)
    requires 1 <= threads <= 0x1_0000_0000
    requires |offsets| == threads
    requires forall w :: 0 <= w < threads ==> offsets[w] as int == w % 0x1_0000_0000
    ensures n as int % threads < threads
    ensures n as int == WalkNonce(offsets[n as int % threads] as int, threads, n as int / threads)
  {
    assert offsets[n as int % threads] as int == n as int % threads;
  }

  /**
    A worker that ran out of nonces hashed every nonce of its residue class from its
    offset up to the 32-bit limit.
   */
  lemma {:induction false} ExhaustedWalkCovers(start: uint32, threads: nat, hashed: seq<uint32>, n: uint32)
    requires threads >= 1
    requires |hashed| > 0
    requires forall k :: 0 <= k < |hashed| ==> hashed[k] as int == WalkNonce(start as int, threads, k)
    requires UINT32_MAX - hashed[|hashed| - 1] as int < threads
    requires start <= n && (n as int - start as int) % threads == 0
    ensures n in hashed
  {
    var k := (n as int - start as int) / threads;
    assert n as int == start as int + k * threads;
    if k >= |hashed| {
      var last := |hashed| - 1;
      StrideMultiple(k - last, threads);
      assert false;
    }
    assert hashed[k] == n;
  }

  /**
    Worker `i` of a search, having run out of nonces, hashed and missed every nonce whose
    residue modulo the thread count is `i`.
   */
  lemma ExhaustedWorkerMissedClass(i: nat, threads: nat, start: uint32, hashed: seq<uint32>,
                                   longhash: uint32 -> Option<Hash>, checkHash: (Hash, Difficulty) -> bool,
                                   difficulty: Difficulty)
    requires i < threads && start as int == i % 0x1_0000_0000
    requires |hashed| > 0
    requires forall k :: 0 <= k < |hashed| ==> hashed[k] as int == WalkNonce(start as int, threads, k)
    requires forall k :: 0 <= k < |hashed| - 1 ==> Missed(longhash, checkHash, difficulty, hashed[k])
    requires Missed(longhash, checkHash, difficulty, hashed[|hashed| - 1])
    requires UINT32_MAX - hashed[|hashed| - 1] as int < threads
    ensures forall n: uint32 :: n as int % threads == i ==> Missed(longhash, checkHash, difficulty, n)
  {
    forall n: uint32 | n as int % threads == i
      ensures Missed(longhash, checkHash, difficulty, n)
    {
      var k := StepOf(i, threads, start, hashed, n);
    }
  }

  /** The step at which an exhausted walk from offset `i` hashed a nonce of residue `i`. */
  lemma StepOf(i: nat, threads: nat, start: uint32, hashed: seq<uint32>, n: uint32) returns (k: nat)
    requires i < threads && start as int == i % 0x1_0000_0000
    requires |hashed| > 0
    requires forall k :: 0 <= k < |hashed| ==> hashed[k] as int == WalkNonce(start as int, threads, k)
    requires UINT32_MAX - hashed[|hashed| - 1] as int < threads
    requires n as int % threads == i
    ensures k < |hashed| && hashed[k] == n
  {
    var q := n as int / threads;
    assert n as int == q * threads + i;
    if q < 0 {
      StrideMultiple(-q, threads);
      assert false;
    }
    k := q;
    assert start as int == i by {
      assert k * threads >= 0;
    }
    if k >= |hashed| {
      var last := |hashed| - 1;
      assert hashed[last] as int == i + last * threads;
      StrideMultiple(k - last, threads);
      assert false;
    }
    assert hashed[k] as int == i + k * threads;
  }

  /**
    Lines 39-45 of `findNonce`: the calling thread's hash, overridden by every spawned
    worker's non-null hash in spawn order, so the last worker that reported one wins.
   */
  method CombineHashes(mainHash: Hash, workerHashes: seq<Hash>) returns (hash: Hash)
    ensures (forall i :: 0 <= i < |workerHashes| ==> workerHashes[i] == NULL_HASH) ==> hash == mainHash
    ensures forall j :: (0 <= j < |workerHashes| && workerHashes[j] != NULL_HASH
                         && forall l :: j < l < |workerHashes| ==> workerHashes[l] == NULL_HASH)
                        ==> hash == workerHashes[j]
    ensures hash != NULL_HASH ==> hash == mainHash || hash in workerHashes
  {
    hash := mainHash;
    var i := 0;
    while i < |workerHashes|
      invariant 0 <= i <= |workerHashes|
      invariant (forall l :: 0 <= l < i ==> workerHashes[l] == NULL_HASH) ==> hash == mainHash
      invariant forall j :: (0 <= j < i && workerHashes[j] != NULL_HASH
                             && forall l :: j < l < i ==> workerHashes[l] == NULL_HASH)
                            ==> hash == workerHashes[j]
      invariant hash != NULL_HASH ==> hash == mainHash || hash in workerHashes[..i]
    {
      if workerHashes[i] != NULL_HASH {
        hash := workerHashes[i];
      }
      i := i + 1;
    }
    assert workerHashes[..i] == workerHashes;
  }

  /** When some hash in `hashes` is non-null, the position of the last such hash. */
  lemma LastNonNull(hashes: seq<Hash>, k: nat) returns (j: nat)
    requires k < |hashes| && hashes[k] != NULL_HASH
    ensures k <= j < |hashes| && hashes[j] != NULL_HASH
    ensures forall l :: j < l < |hashes| ==> hashes[l] == NULL_HASH
    decreases |hashes| - k
  {
    if exists l :: k < l < |hashes| && hashes[l] != NULL_HASH {
      var l :| k < l < |hashes| && hashes[l] != NULL_HASH;
      j := LastNonNull(hashes, l);
    } else {
      j := k;
    }
  }

  /**
    Whatever the combining picks, it meets the difficulty once some worker found a nonce:
    every walk returns either the null hash or a hash that passed `check_hash`, and the
    combined hash is the caller's or the last non-null worker hash.
   */
  lemma CombinedHashMeetsDifficulty(mainHash: Hash, workerHashes: seq<Hash>, hash: Hash, foundHash: Hash,
                                    checkHash: (Hash, Difficulty) -> bool, difficulty: Difficulty)
    requires mainHash == NULL_HASH || checkHash(mainHash, difficulty)
    requires forall i :: 0 <= i < |workerHashes| ==> workerHashes[i] == NULL_HASH || checkHash(workerHashes[i], difficulty)
    requires (forall i :: 0 <= i < |workerHashes| ==> workerHashes[i] == NULL_HASH) ==> hash == mainHash
    requires forall j :: (0 <= j < |workerHashes| && workerHashes[j] != NULL_HASH
                         && forall l :: j < l < |workerHashes| ==> workerHashes[l] == NULL_HASH)
                        ==> hash == workerHashes[j]
    requires hash != NULL_HASH ==> hash == mainHash || hash in workerHashes
    requires checkHash(foundHash, difficulty) && (foundHash == mainHash || foundHash in workerHashes)
    ensures checkHash(hash, difficulty)
  {
    if hash == NULL_HASH && foundHash != NULL_HASH {
      if k :| 0 <= k < |workerHashes| && workerHashes[k] != NULL_HASH {
        var j := LastNonNull(workerHashes, k);
      }
      assert false;
    }
  }

  /**
    `Miner::findNonce` with the workers run one after another: the caller walks from 0 and
    worker i from the i-th counter value, each under its own flag schedule `halted(i, _)`.
    Any interleaving of the real threads shows each worker some such schedule. `found` is
    `m_nonceFound`, `nonce` is the final `m_nonce`, `hash` the combined hash; the nonce and
    the hash are not claimed to come from the same worker.
   */
  method FindNonce(threads: nat, difficulty: Difficulty, halted: (nat, nat) -> bool,
                   longhash: uint32 -> Option<Hash>, checkHash: (Hash, Difficulty) -> bool)
    returns (found: bool, nonce: uint32, hash: Hash)
    requires threads >= 1
    ensures found ==> checkHash(hash, difficulty)
    ensures found ==> longhash(nonce).Some? && checkHash(longhash(nonce).value, difficulty)
    ensures !found ==> nonce == 0 && hash == NULL_HASH
    // with no stop and no failed hash, "not found" means no 32-bit nonce meets the difficulty
    ensures !found && (forall w, k :: !halted(w, k)) && (forall n: uint32 :: longhash(n).Some?) ==>
              forall n: uint32 :: Missed(longhash, checkHash, difficulty, n)
  {
    ghost var clean := (forall w, k :: !halted(w, k)) && (forall n: uint32 :: longhash(n).Some?);
    var offsets := StartOffsets(threads);
    var mainHash, mainExit, mainHashed := FindBlockNonce(0, threads, difficulty, (k: nat) => halted(0, k), longhash, checkHash);
    found := mainExit.Found?;
    nonce := if mainExit.Found? then mainExit.nonce else 0;
    if !found && clean {
      assert mainExit.Exhausted?;
      ExhaustedWorkerMissedClass(0, threads, 0, mainHashed, longhash, checkHash, difficulty);
    }
    ghost var foundHash := mainHash;
    var workerHashes: seq<Hash> := [];
    var i := 1;
    while i < threads
      invariant 1 <= i <= threads
      invariant |workerHashes| == i - 1
      invariant mainHash == NULL_HASH || checkHash(mainHash, difficulty)
      invariant forall j :: 0 <= j < |workerHashes| ==>
                  workerHashes[j] == NULL_HASH || checkHash(workerHashes[j], difficulty)
      invariant found ==> longhash(nonce).Some? && checkHash(longhash(nonce).value, difficulty)
      invariant found ==> checkHash(foundHash, difficulty) && (foundHash == mainHash || foundHash in workerHashes)
      invariant !found ==> nonce == 0 && mainHash == NULL_HASH
                           && forall j :: 0 <= j < |workerHashes| ==> workerHashes[j] == NULL_HASH
      invariant !found && clean ==> forall n: uint32 :: n as int % threads < i ==> Missed(longhash, checkHash, difficulty, n)
    {
      var w := i;
      var h, e, walked := FindBlockNonce(offsets[i], threads, difficulty, (k: nat) => halted(w, k), longhash, checkHash);
      if !found && !e.Found? && clean {
        assert e.Exhausted?;
        ExhaustedWorkerMissedClass(i, threads, offsets[i], walked, longhash, checkHash, difficulty);
      }
      workerHashes := workerHashes + [h];
      if e.Found? {
        found := true;
        nonce := e.nonce;
        foundHash := h;
      }
      i := i + 1;
    }
    hash := CombineHashes(mainHash, workerHashes);
    if found {
      CombinedHashMeetsDifficulty(mainHash, workerHashes, hash, foundHash, checkHash, difficulty);
    }
  }
}

=== FILE: pipeline.dfy ===
/**
  One pass of the `for (;;)` loop of `MergedMiner::mine`, as a pure step. The loop overlaps
  rounds: a pass fetches new templates, then finishes the search launched by the previous
  pass (submitting to each chain whose difficulty its hash meets), then launches a search
  on the new templates. Network replies, the finished search's outcome, the stop flag and
  the formatted hash rate arrive as the pass's input.
 */
module Pipeline {
  import opened Wrappers
  import opened CryptoNote
  import Commitment
  import StatusQueue

  const MSG_DONOR_WALLET: string := "Failed to parse donor wallet address"
  const MSG_ACCEPTOR_WALLET: string := "Failed to parse acceptor wallet address"
  const MSG_DONOR_FETCH: string := "Failed to get donor block"
  const MSG_ACCEPTOR_FETCH: string := "Failed to get acceptor block"
  const MSG_UNSUPPORTED: string :=
    "Unsupported block version received from acceptor network, merged mining is not possible"
  const MSG_DONOR_SUBMITTED: string := "Submitted donor block"
  const MSG_DONOR_REJECTED: string := "Failed to submit donor block"
  const MSG_ACCEPTOR_SUBMITTED: string := "Submitted acceptor block"
  const MSG_ACCEPTOR_REJECTED: string := "Failed to submit acceptor block"
  const MSG_INTERNAL_ERROR: string := "Internal error"
  const MSG_HASHRATE: string := "Hashrate: "

  datatype BlockTemplate = BlockTemplate(block: Block, height: nat, difficulty: Difficulty)

  /** What a JSON-RPC call came back with: whether the transport succeeded, and the status field. */
  datatype RpcReply = RpcReply(transportOk: bool, status: string)

  /** The acceptance rule shared by `getBlockTemplate` and `submitBlock`. */
  predicate RpcSucceeded(reply: RpcReply)
  {
    reply.transportOk && (reply.status == "" || reply.status == CORE_RPC_STATUS_OK)
  }

  /** A template request's reply and the block its blob decodes to, if it decodes. */
  datatype Fetched = Fetched(reply: RpcReply, decoded: Option<BlockTemplate>)

  /** `getBlockTemplate`: a template only when the call succeeded and the blob decoded. */
  function GetBlockTemplate(f: Fetched): (r: Option<BlockTemplate>)
    ensures r.Some? <==> f.reply.transportOk && f.decoded.Some?
                         && (f.reply.status == "" || f.reply.status == CORE_RPC_STATUS_OK)
    ensures r.Some? ==> r == f.decoded
  {
    if RpcSucceeded(f.reply) then f.decoded else None
  }

  /** `acceptor` is `!address2.empty()`: whether an acceptor chain is configured. */
  datatype Config = Config(acceptor: bool)

  /** The acceptor half of a launched search: the acceptor block and its difficulty. */
  datatype AuxJob = AuxJob(block2: Block, difficulty2: Difficulty)

  /**
    A search launched by `findNonce`, with the values `mine` keeps for finishing it:
    the donor block (commitment already embedded), both difficulties, and the difficulty
    searched for.
   */
  datatype Job = Job(block1: Block, difficulty1: Difficulty, aux: Option<AuxJob>,
                     height: nat, difficulty: Difficulty)

  /** What `findNonce` reports: its return value, the nonce it stored in the block, and `hash`. */
  datatype SearchOutcome = SearchOutcome(found: bool, nonce: uint32, hash: Hash)

  /** Everything one pass of the loop learns from outside. */
  datatype RoundInput = RoundInput(
    stopped: bool,
    donorFetch: Fetched,
    acceptorFetch: Fetched,
    search: SearchOutcome,
    donorSubmit: RpcReply,
    acceptorSubmit: RpcReply,
    hashrate: string)

  datatype Chain = Donor | Acceptor

  /** A `submitBlock` call: to which chain, which block, and whether the daemon accepted it. */
  datatype Submission = Submission(chain: Chain, block: Block, accepted: bool)

  /** The loop's state between passes: the running search, if any, and the message queue. */
  datatype State = State(job: Option<Job>, messages: seq<string>)

  /** A pass either goes round again or returns from `mine` with its result. */
  datatype Next =
    | Continue(state: State, submitted: seq<Submission>)
    | Return(ok: bool, messages: seq<string>, submitted: seq<Submission>)
  {
    function Messages(): seq<string>
    {
      if Continue? then state.messages else messages
    }
  }

  function Min(a: Difficulty, b: Difficulty): Difficulty
  {
    if b < a then b else a
  }

  /**
    What the loop keeps true of a running search: it has an acceptor half exactly when an
    acceptor is configured, and it searches for the smaller of the difficulties it carries.
   */
  predicate Valid(cfg: Config, s: State)
  {
    s.job.Some? ==>
      && (s.job.value.aux.Some? <==> cfg.acceptor)
      && s.job.value.difficulty == (if s.job.value.aux.Some?
                                    then Min(s.job.value.difficulty1, s.job.value.aux.value.difficulty2)
                                    else s.job.value.difficulty1)
  }

  /** Lines 238-254: both wallet addresses must parse before the loop starts. */
  function Begin(cfg: Config, donorWalletOk: bool, acceptorWalletOk: bool, messages: seq<string>): (r: Next)
    ensures r.Continue? <==> donorWalletOk && (cfg.acceptor ==> acceptorWalletOk)
    ensures r.Continue? ==> r.state == State(None, messages) && r.submitted == []
    ensures r.Return? ==> !r.ok && r.submitted == []
    ensures r.Return? ==> r.messages == messages + [if !donorWalletOk then MSG_DONOR_WALLET else MSG_ACCEPTOR_WALLET]
  {
    if !donorWalletOk then Return(false, StatusQueue.Push(messages, MSG_DONOR_WALLET), [])
    else if cfg.acceptor && !acceptorWalletOk then Return(false, StatusQueue.Push(messages, MSG_ACCEPTOR_WALLET), [])
    else Continue(State(None, messages), [])
  }

  /** The donor template of a pass, if it arrived. */
  function DonorTemplate(input: RoundInput): Option<BlockTemplate>
  {
    GetBlockTemplate(input.donorFetch)
  }

  /** The acceptor template of a pass; only requested when an acceptor is configured. */
  function AcceptorTemplate(cfg: Config, input: RoundInput): Option<BlockTemplate>
  {
    if cfg.acceptor then GetBlockTemplate(input.acceptorFetch) else None
  }

  /**
    A pass gets past fetching: not stopped, the donor template arrived, and when an acceptor
    is configured its template arrived with block major version 2.
   */
  predicate Proceeds(cfg: Config, input: RoundInput)
  {
    && !input.stopped
    && DonorTemplate(input).Some?
    && (cfg.acceptor ==> AcceptorTemplate(cfg, input).Some?
                         && AcceptorTemplate(cfg, input).value.block.majorVersion == BLOCK_MAJOR_VERSION_2)
  }

  /** True when `subs` holds a submission to `chain`. */
  predicate SubmitsTo(subs: seq<Submission>, chain: Chain)
  {
    exists i :: 0 <= i < |subs| && subs[i].chain == chain
  }

  /** The donor block as submitted: the launched block with the nonce `findNonce` stored in it. */
  function SolvedBlock(job: Job, outcome: SearchOutcome): Block
  {
    job.block1.(nonce := outcome.nonce)
  }

  /**
    Lines 297-334: finish the previous search. Each chain is submitted to on its own
    difficulty check; the hash-rate line is always reported. The flag is `mergeBlocks`'s result.
   */
  function Finish(cfg: Config, job: Job, input: RoundInput, c: Crypto): (r: (seq<string>, seq<Submission>, bool))
    requires job.aux.Some? <==> cfg.acceptor
    ensures r.2
    ensures SubmitsTo(r.1, Donor) <==> input.search.found && c.checkHash(input.search.hash, job.difficulty1)
    ensures SubmitsTo(r.1, Acceptor) <==>
              input.search.found && cfg.acceptor && c.checkHash(input.search.hash, job.aux.value.difficulty2)
    // at most one submission per chain, the donor's first
    ensures forall i, j :: 0 <= i < j < |r.1| ==> r.1[i].chain == Donor && r.1[j].chain == Acceptor
    ensures forall i :: 0 <= i < |r.1| && r.1[i].chain == Donor ==>
              r.1[i].block == SolvedBlock(job, input.search) && r.1[i].accepted == RpcSucceeded(input.donorSubmit)
    ensures forall i :: 0 <= i < |r.1| && r.1[i].chain == Acceptor ==>
              && job.aux.Some?
              && r.1[i].block == Commitment.MergeBlocks(SolvedBlock(job, input.search), job.aux.value.block2, c).1
              && r.1[i].accepted == RpcSucceeded(input.acceptorSubmit)
    // one outcome line per submission, in submission order, then the hash-rate line
    ensures |r.0| == |r.1| + 1
    ensures forall i :: 0 <= i < |r.1| ==>
              r.0[i] == (if r.1[i].chain == Donor
                         then (if r.1[i].accepted then MSG_DONOR_SUBMITTED else MSG_DONOR_REJECTED)
                         else (if r.1[i].accepted then MSG_ACCEPTOR_SUBMITTED else MSG_ACCEPTOR_REJECTED))
    ensures r.0[|r.0| - 1] == MSG_HASHRATE + input.hashrate
  {
    var block1 := SolvedBlock(job, input.search);
    var hash := input.search.hash;
    var donorHit := input.search.found && c.checkHash(hash, job.difficulty1);
    var donorOk := RpcSucceeded(input.donorSubmit);
    var donorMsgs := if donorHit then [if donorOk then MSG_DONOR_SUBMITTED else MSG_DONOR_REJECTED] else [];
    var donorSubs := if donorHit then [Submission(Donor, block1, donorOk)] else [];
    assert donorHit ==> donorSubs[0].chain == Donor;
    if input.search.found && cfg.acceptor && c.checkHash(hash, job.aux.value.difficulty2) then
      var merged := Commitment.MergeBlocks(block1, job.aux.value.block2, c);
      if !merged.0 then (donorMsgs + [MSG_INTERNAL_ERROR], donorSubs, false)
      else
        var ok := RpcSucceeded(input.acceptorSubmit);
        var subs := donorSubs + [Submission(Acceptor, merged.1, ok)];
        assert subs[|donorSubs|].chain == Acceptor;
        assert donorHit ==> subs[0].chain == Donor;
        (donorMsgs + [if ok then MSG_ACCEPTOR_SUBMITTED else MSG_ACCEPTOR_REJECTED] + [MSG_HASHRATE + input.hashrate],
         subs, true)
    else (donorMsgs + [MSG_HASHRATE + input.hashrate], donorSubs, true)
  }

  /**
    Lines 339-351: the search launched on fresh templates. With an acceptor, the commitment
    to the acceptor block is embedded first and the easier of the two difficulties is searched.
   */
  function Launch(cfg: Config, t1: BlockTemplate, t2: Option<BlockTemplate>, c: Crypto): (r: Option<Job>)
    requires cfg.acceptor ==> t2.Some?
    ensures r.None? <==> cfg.acceptor && !Commitment.FillExtra(t1.block, t2.value.block, c).0
    ensures r.Some? ==>
              && r.value.height == t1.height
              && r.value.difficulty1 == t1.difficulty
              && r.value.difficulty <= t1.difficulty
              && (!cfg.acceptor ==> r.value.block1 == t1.block && r.value.aux.None?
                                    && r.value.difficulty == t1.difficulty)
              && (cfg.acceptor ==>
                    && r.value.block1 == Commitment.FillExtra(t1.block, t2.value.block, c).1
                    && r.value.aux == Some(AuxJob(t2.value.block, t2.value.difficulty))
                    && r.value.difficulty <= t2.value.difficulty
                    && (r.value.difficulty == t1.difficulty || r.value.difficulty == t2.value.difficulty))
  {
    if cfg.acceptor then
      var filled := Commitment.FillExtra(t1.block, t2.value.block, c);
      if !filled.0 then None
      else Some(Job(filled.1, t1.difficulty, Some(AuxJob(t2.value.block, t2.value.difficulty)),
                    t1.height, Min(t1.difficulty, t2.value.difficulty)))
    else Some(Job(t1.block, t1.difficulty, None, t1.height, t1.difficulty))
  }

  /** One pass of the loop body of `mine` (lines 255-358). */
  function Step(cfg: Config, s: State, input: RoundInput, c: Crypto): (r: Next)
    requires Valid(cfg, s)
    // the stop flag ends `mine` successfully, abandoning the running search
    ensures input.stopped ==> r == Return(true, s.messages, [])
    // messages are only ever appended
    ensures |s.messages| <= |r.Messages()| && r.Messages()[..|s.messages|] == s.messages
    ensures r.Continue? ==> Valid(cfg, r.state)
    ensures r.Return? && r.ok ==> input.stopped
    // a failed fetch reports which chain failed and goes round again with the old search still running;
    // an acceptor block of another version ends `mine` with failure and submits nothing
    ensures !input.stopped && DonorTemplate(input).None?
            ==> r == Continue(State(s.job, s.messages + [MSG_DONOR_FETCH]), [])
    ensures !input.stopped && DonorTemplate(input).Some? && cfg.acceptor && AcceptorTemplate(cfg, input).None?
            ==> r == Continue(State(s.job, s.messages + [MSG_ACCEPTOR_FETCH]), [])
    ensures !input.stopped && DonorTemplate(input).Some? && cfg.acceptor && AcceptorTemplate(cfg, input).Some?
            && AcceptorTemplate(cfg, input).value.block.majorVersion != BLOCK_MAJOR_VERSION_2
            ==> r == Return(false, s.messages + [MSG_UNSUPPORTED], [])
    // past fetching, the finished search's lines are reported, and a failed launch adds "Internal error"
    ensures Proceeds(cfg, input) ==>
              var finished := if s.job.Some? then Finish(cfg, s.job.value, input, c).0 else [];
              && (r.Continue? ==> r.state.messages == s.messages + finished)
              && (r.Return? ==> r.messages == s.messages + finished + [MSG_INTERNAL_ERROR])
    // only a pass that gets past fetching finishes the running search
    ensures Proceeds(cfg, input) && s.job.Some? ==> r.submitted == Finish(cfg, s.job.value, input, c).1
    ensures !(Proceeds(cfg, input) && s.job.Some?) ==> r.submitted == []
    {
    if input.stopped then Return(true, s.messages, [])
    else
      var t1 := DonorTemplate(input);
      if t1.None? then Continue(State(s.job, StatusQueue.Push(s.messages, MSG_DONOR_FETCH)), [])
      else
        var t2 := AcceptorTemplate(cfg, input);
        if cfg.acceptor && t2.None? then Continue(State(s.job, StatusQueue.Push(s.messages, MSG_ACCEPTOR_FETCH)), [])
        else if cfg.acceptor && t2.value.block.majorVersion != BLOCK_MAJOR_VERSION_2 then
          Return(false, StatusQueue.Push(s.messages, MSG_UNSUPPORTED), [])
        else
          var (msgs, subs, ok) := if s.job.Some? then Finish(cfg, s.job.value, input, c) else ([], [], true);
          if !ok then Return(false, s.messages + msgs, subs)
          else
            match Launch(cfg, t1.value, t2, c)
            case None => Return(false, StatusQueue.Push(s.messages + msgs, MSG_INTERNAL_ERROR), subs)
            case Some(job) => Continue(State(Some(job), s.messages + msgs), subs)
  }
}

module PipelineProperties {
  import opened Wrappers
  import opened CryptoNote
  import Commitment
  import opened Pipeline

  /**
    The donor chain is submitted to exactly when the pass gets past fetching, a search was
    running, it found a nonce, and the hash meets the donor difficulty captured when that
    search was launched; the block sent is the launched block with the found nonce.
   */
  lemma DonorSubmissionRule(cfg: Config, s: State, input: RoundInput, c: Crypto)
    requires Valid(cfg, s)
    ensures var subs := Step(cfg, s, input, c).submitted;
            SubmitsTo(subs, Donor) <==>
              && Proceeds(cfg, input) && s.job.Some? && input.search.found
              && c.checkHash(input.search.hash, s.job.value.difficulty1)
    ensures var subs := Step(cfg, s, input, c).submitted;
            forall i :: 0 <= i < |subs| && subs[i].chain == Donor ==>
              && s.job.Some?
              && subs[i].block == s.job.value.block1.(nonce := input.search.nonce)
              && subs[i].accepted == RpcSucceeded(input.donorSubmit)
  {
    var r := Step(cfg, s, input, c);
    if !(Proceeds(cfg, input) && s.job.Some?) {
      assert r.submitted == [];
    }
  }

  /**
    The acceptor chain is submitted to exactly when an acceptor is configured, the pass gets
    past fetching, the running search found a nonce, and the hash meets the acceptor
    difficulty captured at launch, whatever happened on the donor side; the block sent is
    the captured acceptor block with the solved donor block merged into it.
   */
  lemma AcceptorSubmissionRule(cfg: Config, s: State, input: RoundInput, c: Crypto)
    requires Valid(cfg, s)
    ensures var subs := Step(cfg, s, input, c).submitted;
            SubmitsTo(subs, Acceptor) <==>
              && cfg.acceptor && Proceeds(cfg, input) && s.job.Some? && input.search.found
              && c.checkHash(input.search.hash, s.job.value.aux.value.difficulty2)
    ensures var subs := Step(cfg, s, input, c).submitted;
            forall i :: 0 <= i < |subs| && subs[i].chain == Acceptor ==>
              && s.job.Some? && s.job.value.aux.Some?
              && subs[i].block == Commitment.MergeBlocks(SolvedBlock(s.job.value, input.search),
                                                         s.job.value.aux.value.block2, c).1
              && subs[i].accepted == RpcSucceeded(input.acceptorSubmit)
  {
    var r := Step(cfg, s, input, c);
    if !(Proceeds(cfg, input) && s.job.Some?) {
      assert r.submitted == [];
    }
  }

  /**
    After fetching, a pass ends `mine` only when embedding the commitment fails; otherwise it
    launches a search on the new donor block (commitment embedded when an acceptor is
    configured) for the smaller of the two difficulties.
   */
  lemma LaunchRule(cfg: Config, s: State, input: RoundInput, c: Crypto)
    requires Valid(cfg, s)
    requires Proceeds(cfg, input)
    ensures var r := Step(cfg, s, input, c);
            var t1 := DonorTemplate(input).value;
            r.Return? <==> cfg.acceptor && !Commitment.FillExtra(t1.block, AcceptorTemplate(cfg, input).value.block, c).0
    ensures var r := Step(cfg, s, input, c);
            var t1 := DonorTemplate(input).value;
            r.Continue? ==>
              && r.state.job.Some?
              && var job := r.state.job.value;
                 && job.height == t1.height
                 && job.difficulty1 == t1.difficulty
                 && job.difficulty <= t1.difficulty
                 && (!cfg.acceptor ==> job.block1 == t1.block && job.difficulty == t1.difficulty)
                 && (cfg.acceptor ==>
                       var t2 := AcceptorTemplate(cfg, input).value;
                       && job.block1 == Commitment.FillExtra(t1.block, t2.block, c).1
                       && job.aux == Some(AuxJob(t2.block, t2.difficulty))
                       && job.difficulty <= t2.difficulty
                       && (job.difficulty == t1.difficulty || job.difficulty == t2.difficulty))
  {
  }

  /**
    A found hash meets the difficulty that was searched for, which is one of the two chains'
    own: so that chain (the donor, when it is the easier one or alone) is always submitted to.
   */
  lemma EasierChainSubmitted(cfg: Config, s: State, input: RoundInput, c: Crypto)
    requires Valid(cfg, s)
    requires Proceeds(cfg, input)
    requires s.job.Some? && input.search.found
    requires c.checkHash(input.search.hash, s.job.value.difficulty)
    ensures var subs := Step(cfg, s, input, c).submitted;
            SubmitsTo(subs, Donor) || SubmitsTo(subs, Acceptor)
    ensures var subs := Step(cfg, s, input, c).submitted;
            (!cfg.acceptor || s.job.value.difficulty1 <= s.job.value.aux.value.difficulty2)
            ==> SubmitsTo(subs, Donor)
  {
    DonorSubmissionRule(cfg, s, input, c);
    AcceptorSubmissionRule(cfg, s, input, c);
  }

  /** Passes of the loop until one returns or the inputs run out. */
  function Run(cfg: Config, s: State, inputs: seq<RoundInput>, c: Crypto): Next
    requires Valid(cfg, s)
    decreases |inputs|
  {
    if inputs == [] then Continue(s, [])
    else
      var r := Step(cfg, s, inputs[0], c);
      if r.Return? then r
      else
        var rest := Run(cfg, r.state, inputs[1..], c);
        if rest.Continue? then Continue(rest.state, r.submitted + rest.submitted)
        else Return(rest.ok, rest.messages, r.submitted + rest.submitted)
  }

  /** Over any number of passes, messages are only appended and the loop invariant holds. */
  lemma {:induction false} RunAppendsMessages(cfg: Config, s: State, inputs: seq<RoundInput>, c: Crypto)
    requires Valid(cfg, s)
    ensures var r := Run(cfg, s, inputs, c);
            |s.messages| <= |r.Messages()| && r.Messages()[..|s.messages|] == s.messages
    ensures var r := Run(cfg, s, inputs, c);
            r.Continue? ==> Valid(cfg, r.state)
    ensures var r := Run(cfg, s, inputs, c);
            r.Return? && r.ok ==> exists i :: 0 <= i < |inputs| && inputs[i].stopped
    decreases |inputs|
  {
    if inputs != [] {
      var r := Step(cfg, s, inputs[0], c);
      if r.Continue? {
        RunAppendsMessages(cfg, r.state, inputs[1..], c);
        var rest := Run(cfg, r.state, inputs[1..], c);
        assert rest.Messages()[..|r.state.messages|] == r.state.messages;
        assert r.state.messages[..|s.messages|] == s.messages;
        if rest.Return? && rest.ok {
          var i :| 0 <= i < |inputs[1..]| && inputs[1..][i].stopped;
          assert inputs[i + 1].stopped;
        }
      }
    }
  }
}

=== FILE: status_queue.dfy ===
/** The status-message queue of `MergedMiner`: the miner appends, the UI polls one at a time. */
module StatusQueue {

  /** `m_messages.push(m)` */
  function Push(q: seq<string>, m: string): (r: seq<string>)
    ensures |r| == |q| + 1 && r[..|q|] == q && r[|q|] == m
  {
    q + [m]
  }

  /**
    `getMessage`: remove and return the oldest message; on an empty queue return the
    empty string and leave the queue as it is.
   */
  function GetMessage(q: seq<string>): (r: (string, seq<string>))
    ensures q == [] ==> r.0 == "" && r.1 == q
    ensures q != [] ==> [r.0] + r.1 == q
  {
    if q == [] then ("", q) else (q[0], q[1..])
  }

  /** The messages `n` successive `getMessage` calls return, and the queue they leave. */
  function Drain(q: seq<string>, n: nat): (seq<string>, seq<string>)
  {
    if n == 0 then ([], q)
    else
      var (m, rest) := GetMessage(q);
      var (ms, left) := Drain(rest, n - 1);
      ([m] + ms, left)
  }

  /** Append each message of `ms` in order. */
  function PushAll(q: seq<string>, ms: seq<string>): seq<string>
    decreases |ms|
  {
    if ms == [] then q else PushAll(Push(q, ms[0]), ms[1..])
  }

  /** Pushing several messages appends them in their order. */
  lemma {:induction false} PushAllAppends(q: seq<string>, ms: seq<string>)
    ensures PushAll(q, ms) == q + ms
    decreases |ms|
  {
    if ms != [] {
      PushAllAppends(Push(q, ms[0]), ms[1..]);
      assert q + [ms[0]] + ms[1..] == q + ms;
    }
  }

  /** FIFO: draining as many messages as are queued returns them oldest first and empties the queue. */
  lemma {:induction false} DrainReturnsQueue(q: seq<string>)
    ensures Drain(q, |q|) == (q, [])
    decreases |q|
  {
    if q != [] {
      DrainReturnsQueue(q[1..]);
      assert [q[0]] + q[1..] == q;
    }
  }

  /** Polling an empty queue any number of times yields only empty strings and keeps it empty. */
  lemma {:induction false} DrainEmpty(n: nat)
    ensures Drain([], n) == (seq(n, _ => ""), [])
  {
    if n > 0 {
      DrainEmpty(n - 1);
      assert [""] + seq(n - 1, _ => "") == seq(n, _ => "");
    } else {
      assert seq(0, _ => "") == [];
    }
  }

  /**
    No message is lost or reordered: whatever was queued before a batch of pushes
    comes out first, followed by the batch in push order.
   */
  lemma FifoOrder(q: seq<string>, ms: seq<string>)
    ensures Drain(PushAll(q, ms), |q| + |ms|) == (q + ms, [])
  {
    PushAllAppends(q, ms);
    DrainReturnsQueue(q + ms);
    assert |q + ms| == |q| + |ms|;
  }
}

=== FILE: wrappers.dfy ===
/** Failure-carrying results used across the model. */
module Wrappers {

  /** A value that may be absent: a foreign call that reports failure through `bool`. */
  datatype Option<+T> = None | Some(value: T)

  /** A value or the reason it could not be produced. */
  datatype Result<+R, +E> = Success(value: R) | Failure(error: E)
}
